=== FILE: README.md ===
# GDB-MCP session core, modelled in Dafny

GDB-MCP exposes gdb to remote callers as a set of synchronous
request/response tools. At its core is a registry of gdb subprocesses keyed by
session id. A command is written to a session's standard input, and the reply
is read back line by line until a line that looks like the end of a reply:

- gdb's idle prompt `(gdb)`;
- a machine-interface result record `^done`;
- a machine-interface error record `^error`.

Starting a session runs the same loop once over gdb's startup banner. That
pass stops only on the prompt. On top of this executor sit tool wrappers that
build command strings from their arguments.

This project models that core as pure functions over immutable data:

- `outcomes.dfy`: `Option`, `Result`, and Python's truthiness of an optional
  string or integer.
- `text.dfy`: the string operations the code relies on.
  - substring containment (`in`), proved equal to the positional definition
  - `"".join`, proved to distribute over concatenation
  - `sep.join` and `str.split`: join after split gives back the string;
    split after join gives back the parts when the list is non-empty and no
    part contains the separator
  - `str(int)`, proved to read back as the number
- `framing.dfy`: the two framing passes.
  - `Collect` is the pass as a function.
  - `IsFrameOf` describes the frame without running anything, and the two are
    proved equivalent.
  - `ReadFrame` is the source's `while True` loop, proved to compute the same
    frame.
- `sessions.dfy`: the process record, the session record and the registry.
  - `Start` registers a session only after the readiness pass.
  - lookup, an idempotent remove, and executing one or several commands.
- `command_text.dfy`: the command builders.
  - `disassemble` precedence, `backtrace [full] [N]` and its heading
  - `info registers` / `info functions`, `step(i)` / `next(i)`
  - program-path normalisation, `file "..."`, the `set args` join
  - extraction of the breakpoint number that gates the `condition` command
- `tools.dfy`: the tools built on the core. `gdb_load`, `gdb_set_breakpoint`,
  `gdb_list_sessions` and `gdb_terminate` appear as `Load`, `SetBreakpoint`,
  `ListSessions` and `Terminate`.

A gdb process is a record with five fields:

- whether its input pipe exists;
- whether its output pipe exists;
- the lines written to its input so far;
- the output lines it will produce that nobody has read yet (`pending`);
- whether polling reports that it has exited.

Each element of `pending` is a line as `readline()` returns it, newline
included, so a blank line is `"\n"`. Only the empty string `""`, or running
off the end of `pending`, is end of stream, which is what `readline()`
reports at end of file.

Points of the code that the model keeps as they are:

- gdb's machine-interface result records start a line, but the reply loop
  (gdb/core/gdb.py:63) tests containment anywhere in the line, and so does
  `Framing.EndsFrame`.
- `GdbSession.ready` is declared (gdb/models/session.py:9) but `start_gdb`
  never sets it, so `Sessions.Start` registers sessions with `ready == false`.
- An exception from `process.kill()` skips `remove_session`
  (gdb/commands/__init__.py:302-304) and reaches the outer handler.
  `Tools.Terminate` therefore reports the kill error and leaves the entry
  registered.
- Only stdout is checked when starting (gdb/core/gdb.py:25-26), and so
  `Sessions.Start` checks only that.
- `start_gdb` assigns `active_sessions[session_id]` without checking the id.
  `Sessions.Start` likewise overwrites an existing entry.
  `Sessions.StartWithFreshIdGrows` states the growth for a fresh id, which is
  what `uuid4` provides.
- In machine-interface mode gdb follows a `^done` record with a `(gdb)`
  prompt line. The reply loop stops at `^done` (gdb/core/gdb.py:63), so the
  prompt line stays unread and is the whole reply to the next command.
  `Framing.PromptAfterDoneIsNextReply` states this.

## Model

| member | source | states |
|---|---|---|
| Framing.Collect | gdb/core/gdb.py:57-64 | one reply pass loses and reorders nothing: the reply lines followed by the unread lines are exactly the stream |
| Framing.CollectIsFrame | gdb/core/gdb.py:57-64 | the pass returns only real lines, and no line before the last ends the reply; it stopped on a line that ends the reply, or at end of stream |
| Framing.FrameIsUnique | gdb/core/gdb.py:57-64 | exactly one split of the stream meets that description, so the reply is determined by where the first ending line or end of stream falls |
| Framing.ReadFrame | gdb/core/gdb.py:57-66 | the source's read loop consumes exactly the frame described above and returns the concatenation of the lines it kept |
| Framing.StopsAtFirstEnd | gdb/core/gdb.py:58-64 | N lines that do not end the reply, then one that does: the pass returns exactly those N+1 lines in order and leaves every later line unread |
| Framing.PromptAfterDoneIsNextReply | gdb/core/gdb.py:57-64 | when a reply line is followed by a `^done` line and then a prompt line, the reply pass returns the first two lines and leaves the prompt line unread, and the next pass returns that prompt line alone |
| Framing.EndOfStreamGivesEmptyReply | gdb/core/gdb.py:59-61 | when the first read reports end of stream, the reply is empty and nothing is consumed |
| Framing.FrameTextInOrder | gdb/core/gdb.py:62-66 | the reply text followed by the unread text is the stream's text: lines are kept whole and in order |
| Framing.ReplyEndsNoLaterThanReadiness | gdb/core/gdb.py:35 | every line that stops the readiness pass stops a reply pass, so a reply pass's lines are a prefix of a readiness pass's lines over the same stream |
| Framing.DoneRecordEndsOnlyReplies | gdb/core/gdb.py:35-63 | a line containing `^done` but not the prompt ends a command reply, which is then exactly that line with everything after it unread, while the readiness pass keeps the line and reads on |
| Framing.ErrorRecordEndsOnlyReplies | gdb/core/gdb.py:35-63 | the same for a line containing `^error` but not the prompt |
| Framing.RecordEndsOnlyReplies | gdb/core/gdb.py:35-63 | any non-empty line that ends a reply but not readiness is a one-line reply, and the readiness pass keeps it and reads on |
| Framing.ReplyReadsPast | gdb/core/gdb.py:58-64 | a non-empty line holding none of `(gdb)`, `^done` and `^error` is kept by the reply pass and reading continues, with the same unread rest as the pass over the following lines |
| Framing.ReadinessReadsPast | gdb/core/gdb.py:30-36 | a non-empty line without `(gdb)` is kept and reading continues, with the same unread rest as the pass over the following lines |
| Text.ContainsIffOccurs | gdb/core/gdb.py:63 | the containment test used for the markers holds exactly when the marker occurs at some index of the line |
| Text.ConcatAppend | gdb/core/gdb.py:66 | `"".join` of two runs of lines is the join of each, side by side |
| Sessions.Start | gdb/core/gdb.py:11-40 | a spawn error is returned with the registry untouched; a missing stdout fails with "Failed to initialize GDB stdout stream" and registers nothing; otherwise the session is registered under its id with the given working directory, no target and `ready` false; the banner text returned is one readiness pass over gdb's output, and that pass's unread rest stays pending; other entries are unchanged |
| Sessions.StartWithFreshIdGrows | gdb/core/gdb.py:15-39 | starting under an id not yet in use adds exactly one session |
| Sessions.Get | gdb/core/gdb.py:69-73 | lookup finds a session exactly when its id is registered, and returns that entry |
| Sessions.Remove | gdb/core/gdb.py:76-81 | afterwards the id is absent, every other id stays, and each keeps its session |
| Sessions.RemoveIsIdempotent | gdb/core/gdb.py:76-81 | removing twice is removing once, lookup then finds nothing, and removing an unknown id changes nothing |
| Sessions.Send | gdb/core/gdb.py:54-66 | writing a command appends it with a newline to the process's input, reading never adds output, and nothing else about the session changes |
| Sessions.Exec | gdb/core/gdb.py:43-66 | an unknown id fails with "Invalid session ID" and a session missing a pipe with "Session process streams are not available", both without change; otherwise the command plus newline is written, the call succeeds, and no other session and nothing but this session's streams changes |
| Sessions.ExecReadsOneReply | gdb/core/gdb.py:57-66 | the text `exec_gdb_command` returns is one reply pass over the session's unread output, and what that pass did not read stays pending for the next command |
| Sessions.SendAll | gdb/core/gdb.py:54-66 | writing several commands appends each, newline-terminated and in order, and returns one reply per command |
| Sessions.SendAllReadsInTurn | gdb/core/gdb.py:57-66 | the replies of several commands are successive reply passes over gdb's unread output, each starting where the previous one stopped, and what the last left stays pending |
| Sessions.ExecAllReadsInTurn | gdb/commands/__init__.py:45-54 | the replies of the commands `gdb_load` sends are successive reply passes over the session's unread output, one per command |
| Sessions.ExecAll | gdb/commands/__init__.py:45-54 | several commands on one session: the same two failures as one command, otherwise one reply per command, every command written in order, and only this session's streams change |
| Sessions.ExecAllIsExecInTurn | gdb/commands/__init__.py:45-54 | running several commands is calling the executor on the first, stopping at its failure, then on the rest from the registry it left, with the first reply heading the list |
| Tools.Load | gdb/commands/__init__.py:27-60 | an unknown id fails with "Invalid session ID" and nothing changes; otherwise the normalised path is recorded as the session's target before anything is sent; without pipes the load fails with the process untouched; with them `file "<path>"`, `set args ...` when there are arguments, and `run` are written in that order, one reply each; in every case nothing about the session changes but its target and its streams |
| Tools.LoadReadsInTurn | gdb/commands/__init__.py:45-54 | the outputs `gdb_load` returns are gdb's replies to `file`, `set args` and `run`: successive reply passes over the session's unread output |
| Tools.LoadRecordsTargetEvenOnFailure | gdb/commands/__init__.py:36-45 | the target is recorded even when sending the `file` command fails |
| CommandText.NormalizePath | gdb/commands/__init__.py:36-39 | without a working directory, or for an absolute program, the path is the program as given; otherwise it ends with the program after a directory part that is the working directory followed by one `/`, which is added only when the working directory does not already end in `/` |
| CommandText.JoinPath | gdb/commands/__init__.py:39 | POSIX `os.path.join` for a relative name: the directory, then `/` unless the directory is empty or already ends in `/`, then the name |
| CommandText.NormalizeUnderAbsoluteDir | gdb/commands/__init__.py:37-39 | under an absolute working directory the recorded target is absolute, and normalising it again leaves it unchanged |
| CommandText.NormalizeUnderRelativeDirRepeats | gdb/commands/__init__.py:37-39 | under a relative working directory normalising is not idempotent: `build` and `app` give `build/app`, and normalising that gives `build/build/app` |
| CommandText.SetArgsCommand | gdb/commands/__init__.py:48-51 | a `set args` command is sent exactly when the argument list is present and non-empty |
| CommandText.SetArgsWords | gdb/commands/__init__.py:50 | splitting the `set args` command on spaces gives `set`, `args` and then the arguments, when no argument holds a space |
| CommandText.SpacedArgumentMerges | gdb/commands/__init__.py:50 | the join does not quote: the single argument `a b` and the two arguments `a`, `b` produce the same command |
| Text.SplitJoin | gdb/commands/__init__.py:50 | splitting a separator-join on the separator gives back the parts, when the list of parts is non-empty and no part holds the separator |
| Text.JoinSplit | gdb/commands/__init__.py:50 | joining the pieces of a split with the separator gives back the string |
| CommandText.LoadCommands | gdb/commands/__init__.py:44-54 | `gdb_load` sends two or three commands: `file "<path>"` (built by `CommandText.FileCommand`) first, `run` last, and the `set args` command in between exactly when there are arguments |
| Tools.SetBreakpoint | gdb/commands/__init__.py:116-139 | an unknown id and missing pipes fail with their messages and change nothing; otherwise `break <location>` (built by `CommandText.BreakCommand`) is written, the first output is the executor's reply to it, and the `condition` command is written and its reply kept exactly when the condition gate accepts that reply; only this session's streams change |
| Tools.SetBreakpointReadsInTurn | gdb/commands/__init__.py:123-133 | the outputs are gdb's replies: the reply pass after `break`, which the gate inspects, then, when `condition` was sent, the pass after it; what the last pass left stays pending |
| Tools.NoConditionSendsOnlyBreak | gdb/commands/__init__.py:126-133 | with no condition, or an empty one, only the `break` line is written |
| CommandText.ConditionCommand | gdb/commands/__init__.py:126-133 | a condition command exists exactly when the condition is non-empty and the reply names a breakpoint number, and it is `condition <number> <condition>` |
| CommandText.FindBreakpointFrom | gdb/commands/__init__.py:129-131 | no number exactly when `Breakpoint ` followed by a digit occurs nowhere from the start index; otherwise the number is the maximal digit run after the first such occurrence |
| CommandText.BreakpointNumber | gdb/commands/__init__.py:129-131 | no number exactly when `Breakpoint ` followed by a digit occurs nowhere in the reply; otherwise the number is the maximal digit run after the first occurrence, a non-empty string of decimal digits |
| CommandText.DigitRun | gdb/commands/__init__.py:129 | greedy `\d+`: the run is a prefix made of digits and is followed by a non-digit or the end of the text |
| CommandText.ConfirmationGivesNumber | gdb/commands/__init__.py:129-131 | gdb's confirmation `Breakpoint N` followed by a non-digit yields `N` |
| CommandText.InstructionModeAppendsI | gdb/commands/__init__.py:158-170 | of the builders `CommandText.StepCommand` and `CommandText.NextCommand`: instruction mode sends `stepi` / `nexti`, the line-mode command with `i` appended, and stepping never sends the same command as stepping over |
| CommandText.ZeroLimitSentButNotShown | gdb/commands/__init__.py:193-197 | of the builders `CommandText.Backtrace` and `CommandText.BacktraceHeading`: a limit of 0 is sent to gdb (the test is `is not None`) but left out of the heading (the test is truthiness) |
| CommandText.BacktraceLimitReadsBack | gdb/commands/__init__.py:193-195 | of `CommandText.Backtrace`: a non-negative limit is the last word of the `backtrace` command, written in decimal digits that denote the limit |
| Text.ShowIntDenotes | gdb/commands/__init__.py:195 | Python's `str` of an integer is a minus sign for negatives and then decimal digits that denote its magnitude |
| Text.ShowNatDenotes | gdb/commands/__init__.py:233 | the decimal digits of a natural number read back as that number |
| CommandText.DisassembleLocationWins | gdb/commands/__init__.py:225-227 | of the builder `CommandText.Disassemble`: with a location, start, end and count are ignored and the command is `disassemble <location>` |
| CommandText.DisassembleRangeNeedsStart | gdb/commands/__init__.py:226-233 | without a start, end and count have no effect on the command |
| CommandText.DisassembleStartEnd | gdb/commands/__init__.py:228-231 | with a start and an end and no location, the command is `disassemble <start>,<end>`, whatever the count |
| CommandText.DisassembleStartOnly | gdb/commands/__init__.py:225-233 | with a start but no end or count the command is `disassemble <start>`, and with no location and no start it is the bare `disassemble` |
| CommandText.DisassembleEndBeatsCount | gdb/commands/__init__.py:230-233 | with an end, the count has no effect on the command |
| CommandText.DisassembleCountReadsBack | gdb/commands/__init__.py:228-233 | with a start and a non-zero count and no end, the count follows `,+` as digits that read back as the count |
| CommandText.WithArgument | gdb/commands/__init__.py:248 | an absent or empty argument leaves the base command; a present one follows it after exactly one space |
| CommandText.WithArgumentWords | gdb/commands/__init__.py:260-262 | a present argument contributes its own words after the base command's words |
| CommandText.InfoCommandWords | gdb/commands/__init__.py:248-262 | of `CommandText.InfoCommand`, which builds `CommandText.InfoRegisters` and `CommandText.InfoFunctions`: `info registers R` and `info functions P` split into `info`, the topic and the argument when the argument is one word |
| Tools.ListSessions | gdb/commands/__init__.py:269-282 | one row per registered session, none repeated, every session listed, and each row carrying that session's id, working directory and target |
| Tools.Terminate | gdb/commands/__init__.py:285-307 | an unknown id fails with "Invalid session ID" and nothing changes; otherwise `quit` is written when the pipes allow and its failure ignored, and the process is killed exactly when it has not exited; the entry is removed and success reported unless the kill raises, in which case its error is reported and the entry stays registered with only its streams changed |
| Tools.TerminateTwice | gdb/commands/__init__.py:285-305 | after a successful termination the id is gone, and terminating it again fails with "Invalid session ID" without changing anything |

## Left out

- Spawning gdb (`subprocess.Popen` with `--interpreter=mi`, the gdb path and `cwd=working_dir or os.getcwd()`) is a parameter of `Sessions.Start`: either a process record or the error spawning raised.
- `uuid.uuid4()` is not modelled; the session id is a parameter of `Sessions.Start`.
- gdb's output is fixed in advance as `pending` and does not depend on the commands written. A real gdb's reaction to its input is outside the model.
- Blocking reads and a gdb that never prints a marker are not modelled: the stream is finite, so every pass ends.
- `stdin.flush()` is not modelled: a written line is counted as delivered.
- `poll()` is the process's `exited` field. `kill()` is the `killError` parameter of `Tools.Terminate`.
- Sending `quit` does not change `exited`, because the exit of the real process is not modelled.
- A write that raises on a broken pipe is not modelled: the write always succeeds.
- The standard error pipe is never read by the core and is not modelled.
- Concurrency across threads is not modelled, because the source takes no locks and the model is sequential.
- The human-readable text wrapped around tool results (`Program loaded: ...`, `Output:` and so on) is not modelled: `Replies` carries the raw gdb replies. The one exception is `BacktraceHeading`, kept because its test of the limit differs from the command's.
- The headings of `gdb_disassemble`, `gdb_info_registers` and `gdb_info_functions` are not modelled, for the same reason.
- Exceptions are modelled only where the core raises them: spawn failure, a missing stdout, an unknown id, missing pipes, and a failing kill. Other runtime errors that the tools' `except Exception` would convert are not modelled.
- `gdb_start` is `Sessions.Start` plus the conversion of an exception into `{"error": ...}`, which `Result` already represents.
- The wrappers `gdb_run`, `gdb_command`, `gdb_attach`, `gdb_load_core`, `gdb_continue`, `gdb_finish` and `gdb_print` are not modelled. Each is one `Sessions.Exec` or `Sessions.ExecAll` call with a command string built from its arguments.
- `gdb_step`, `gdb_next`, `gdb_backtrace`, `gdb_disassemble`, `gdb_info_registers` and `gdb_info_functions` are modelled only as their command strings. Executing a command string is `Sessions.Exec`.
- Registering the tools with FastMCP, gdb/server.py, gdb/__init__.py, gdb-mcp.py and example.c are outside the session core and are not part of this model.
- `CommandText.DigitRun`: `\d` is ASCII digits only. Python's `re` also matches other Unicode decimal digits, and those are not modelled.
- `CommandText.JoinPath`: models POSIX `os.path.join` and `os.path.isabs` only, not Windows paths.
- `Sessions.Exec`: its contract does not itself state how the reply is framed. That half of the promise is stated by `Sessions.ExecReadsOneReply`, to keep each proof small.
- `Tools.ListSessions`: lists the sessions in no promised order. Python dicts iterate in insertion order, and the model does not keep insertion order.

=== FILE: command_text.dfy ===
/** The command strings the tool wrappers send to gdb. Each is a fixed
    composition of the wrapper's arguments; optional arguments follow Python
    truthiness (an empty string, a zero count or `None` counts as absent)
    unless the source tests `is not None`. */
module CommandText {
  import opened Outcomes
  import opened Text

  /** `base`, followed by a space and the argument when the argument is present. */
  function WithArgument(base: string, arg: Option<string>): (command: string)
    ensures !Present(arg) ==> command == base
    ensures Present(arg) ==> IsPrefix(base + " ", command) && command[|base| + 1..] == arg.value
  {
    if Present(arg) then base + " " + arg.value else base
  }

  /** A present argument adds its own words after the words of the base. */
  lemma WithArgumentWords(base: string, arg: Option<string>)
    requires Present(arg)
    ensures Split(WithArgument(base, arg), ' ') == Split(base, ' ') + Split(arg.value, ' ')
  {
    assert WithArgument(base, arg) == base + [' '] + arg.value;
    SplitAround(base, arg.value, ' ');
  }

  // ----- stepping -----

  function StepCommand(instructions: bool): string {
    if instructions then "stepi" else "step"
  }

  function NextCommand(instructions: bool): string {
    if instructions then "nexti" else "next"
  }

  /** Instruction mode is the line-mode command with `i` appended, and `step`
      and `next` never coincide. */
  lemma InstructionModeAppendsI(instructions: bool)
    ensures StepCommand(true) == StepCommand(false) + "i"
    ensures NextCommand(true) == NextCommand(false) + "i"
    ensures StepCommand(instructions) != NextCommand(instructions)
  {
  }

  // ----- information -----

  /** `info <topic>`, followed by the argument when it is present. */
  function InfoCommand(topic: string, arg: Option<string>): string {
    WithArgument("info " + topic, arg)
  }

  function InfoRegisters(register: Option<string>): string {
    InfoCommand("registers", register)
  }

  function InfoFunctions(pattern: Option<string>): string {
    InfoCommand("functions", pattern)
  }

  /** With a one-word topic and a one-word argument, the command's words are
      `info`, the topic and the argument. */
  lemma InfoCommandWords(topic: string, arg: Option<string>)
    requires ' ' !in topic
    requires Present(arg) && ' ' !in arg.value
    ensures Split(InfoCommand(topic, arg), ' ') == ["info", topic, arg.value]
  {
    WithArgumentWords("info " + topic, arg);
    assert "info" + [' '] + topic == "info " + topic;
    assert ' ' !in "info";
    SplitTwoWords("info", topic, ' ');
    SplitWithoutSeparator(arg.value, ' ');
  }

  // ----- backtrace -----

  /** `backtrace` or `backtrace full`, then the limit whenever one is given,
      zero included. */
  function Backtrace(full: bool, limit: Option<int>): string {
    (if full then "backtrace full" else "backtrace")
    + (if limit.Some? then " " + ShowInt(limit.value) else "")
  }

  /** The heading of the backtrace result; it mentions the limit only when
      the limit is non-zero. */
  function BacktraceHeading(full: bool, limit: Option<int>): string {
    "Backtrace"
    + (if full then " (full)" else "")
    + (if PresentInt(limit) then " (limit: " + ShowInt(limit.value) + ")" else "")
    + ":"
  }

  /** A limit of zero is sent to gdb but left out of the heading. */
  lemma ZeroLimitSentButNotShown(full: bool)
    ensures Backtrace(full, Some(0)) == Backtrace(full, None) + " 0"
    ensures Backtrace(full, Some(0)) != Backtrace(full, None)
    ensures BacktraceHeading(full, Some(0)) == BacktraceHeading(full, None)
  {
  }

  /** The limit is the last word of the command and reads back as itself. */
  lemma BacktraceLimitReadsBack(full: bool, limit: nat)
    ensures var command := Backtrace(full, Some(limit));
      var prefix := if full then "backtrace full " else "backtrace ";
      IsPrefix(prefix, command) && AllDigits(command[|prefix|..])
      && DecimalValue(command[|prefix|..]) == limit
  {
    var prefix := if full then "backtrace full " else "backtrace ";
    assert Backtrace(full, Some(limit))[|prefix|..] == ShowInt(limit);
    ShowIntDenotes(limit);
  }

  // ----- disassemble -----

  /** `disassemble`, then the location if given; otherwise the start if given,
      followed by `,end` or, failing that, `,+count`. */
  function Disassemble(location: Option<string>, start: Option<string>, end: Option<string>, count: Option<int>): string {
    "disassemble"
    + if Present(location) then " " + location.value
      else if Present(start) then
        " " + start.value
        + if Present(end) then "," + end.value
          else if PresentInt(count) then ",+" + ShowInt(count.value)
          else ""
      else ""
  }

  /** A location overrides the whole range. */
  lemma DisassembleLocationWins(location: Option<string>, start: Option<string>, end: Option<string>, count: Option<int>)
    requires Present(location)
    ensures Disassemble(location, start, end, count) == Disassemble(location, None, None, None)
    ensures Disassemble(location, start, end, count) == "disassemble " + location.value
  {
  }

  /** Without a start, the end and count are ignored. */
  lemma DisassembleRangeNeedsStart(location: Option<string>, start: Option<string>, end: Option<string>, count: Option<int>)
    requires !Present(start)
    ensures Disassemble(location, start, end, count) == Disassemble(location, None, None, None)
  {
  }

  /** With a start and an end the range is `start,end`, whatever the count. */
  lemma DisassembleStartEnd(start: string, end: string, count: Option<int>)
    requires start != "" && end != ""
    ensures Disassemble(None, Some(start), Some(end), count) == "disassemble " + start + "," + end
  {
  }

  /** With a start alone the command is `disassemble <start>`, and with
      nothing at all it is the bare `disassemble`. */
  lemma DisassembleStartOnly(start: string, end: Option<string>, count: Option<int>)
    requires start != "" && !Present(end) && !PresentInt(count)
    ensures Disassemble(None, Some(start), end, count) == "disassemble " + start
    ensures Disassemble(None, None, end, count) == "disassemble"
  {
  }

  /** An end overrides the count. */
  lemma DisassembleEndBeatsCount(start: Option<string>, end: Option<string>, count: Option<int>)
    requires Present(end)
    ensures Disassemble(None, start, end, count) == Disassemble(None, start, end, None)
  {
  }

  /** With a start and a count but no end, the count follows `,+` and reads back. */
  lemma DisassembleCountReadsBack(start: string, count: nat)
    requires start != "" && count != 0
    ensures var command := Disassemble(None, Some(start), None, Some(count));
      var prefix := "disassemble " + start + ",+";
      IsPrefix(prefix, command) && AllDigits(command[|prefix|..])
      && DecimalValue(command[|prefix|..]) == count
  {
    var prefix := "disassemble " + start + ",+";
    assert Disassemble(None, Some(start), None, Some(count))[|prefix|..] == ShowInt(count);
    ShowIntDenotes(count);
  }

  // ----- loading -----

  /** POSIX `os.path.isabs`. */
  predicate IsAbsolute(path: string) {
    |path| > 0 && path[0] == '/'
  }

  /** POSIX `os.path.join(dir, name)` for a relative `name`: a `/` goes in
      between unless `dir` is empty or already ends with one. */
  function JoinPath(dir: string, name: string): (path: string)
    requires !IsAbsolute(name)
    ensures IsPrefix(dir, path) && |path| >= |dir| + |name| && path[|path| - |name|..] == name
    ensures path[|dir|..|path| - |name|] == (if dir == "" || dir[|dir| - 1] == '/' then "" else "/")
  {
    if dir == "" || dir[|dir| - 1] == '/' then dir + name else dir + "/" + name
  }

  /** The program path `gdb_load` records and loads: a relative program is
      taken relative to the session's working directory, when it has one. */
  function NormalizePath(workingDir: Option<string>, program: string): (path: string)
    ensures !Present(workingDir) || IsAbsolute(program) ==> path == program
    ensures Present(workingDir) && !IsAbsolute(program) ==>
      && |path| > |program|
      && path[|path| - |program|..] == program
      && var dir := path[..|path| - |program|];
        && IsPrefix(workingDir.value, dir)
        && |dir| == |workingDir.value| + (if workingDir.value[|workingDir.value| - 1] == '/' then 0 else 1)
        && dir[|dir| - 1] == '/'
  {
    if Present(workingDir) && !IsAbsolute(program) then JoinPath(workingDir.value, program) else program
  }

  /** Under an absolute working directory every normalised path is absolute,
      and normalising again changes nothing. */
  lemma NormalizeUnderAbsoluteDir(dir: string, program: string)
    requires IsAbsolute(dir)
    ensures IsAbsolute(NormalizePath(Some(dir), program))
    ensures NormalizePath(Some(dir), NormalizePath(Some(dir), program)) == NormalizePath(Some(dir), program)
  {
  }

  /** Under a relative working directory normalisation is not idempotent:
      the directory is prefixed a second time. */
  lemma NormalizeUnderRelativeDirRepeats()
    ensures NormalizePath(Some("build"), "app") == "build/app"
    ensures NormalizePath(Some("build"), NormalizePath(Some("build"), "app")) == "build/build/app"
  {
  }

  function FileCommand(path: string): string {
    "file \"" + path + "\""
  }

  /** `set args` and the arguments joined by single spaces, only for a
      non-empty argument list. */
  function SetArgsCommand(arguments: Option<seq<string>>): (command: Option<string>)
    ensures command.Some? <==> arguments.Some? && |arguments.value| > 0
  {
    match arguments
    case Some(args) => if |args| > 0 then Some("set args " + Join(args, " ")) else None
    case None => None
  }

  /** Arguments without spaces are recovered by splitting the command on spaces. */
  lemma SetArgsWords(arguments: seq<string>)
    requires |arguments| > 0
    requires forall i :: 0 <= i < |arguments| ==> ' ' !in arguments[i]
    ensures Split(SetArgsCommand(Some(arguments)).value, ' ') == ["set", "args"] + arguments
  {
    assert "set args" + [' '] + Join(arguments, [' ']) == SetArgsCommand(Some(arguments)).value;
    SplitJoinedAfter("set args", arguments, ' ');
    assert "set" + [' '] + "args" == "set args";
    SplitTwoWords("set", "args", ' ');
  }

  /** An argument holding a space is indistinguishable from two arguments. */
  lemma SpacedArgumentMerges()
    ensures SetArgsCommand(Some(["a b"])) == SetArgsCommand(Some(["a", "b"]))
  {
    assert ["a", "b"][1..] == ["b"];
    assert Join(["a", "b"], " ") == "a" + " " + Join(["b"], " ");
    assert "a" + " " + "b" == "a b";
    assert Join(["a b"], " ") == "a b";
  }

  /** The commands `gdb_load` sends, in order. */
  function LoadCommands(path: string, arguments: Option<seq<string>>): (commands: seq<string>)
    ensures |commands| == if SetArgsCommand(arguments).Some? then 3 else 2
    ensures commands[0] == FileCommand(path) && commands[|commands| - 1] == "run"
    ensures SetArgsCommand(arguments).Some? ==> commands[1] == SetArgsCommand(arguments).value
  {
    [FileCommand(path)]
    + (match SetArgsCommand(arguments) case Some(c) => [c] case None => [])
    + ["run"]
  }

  // ----- breakpoints -----

  function BreakCommand(location: string): string {
    "break " + location
  }

  const BreakpointWord := "Breakpoint "

  /** The pattern `Breakpoint (\d+)` matches at index `i`. */
  predicate MatchesAt(s: string, i: nat) {
    i + |BreakpointWord| < |s| && s[i..i + |BreakpointWord|] == BreakpointWord
    && IsDigit(s[i + |BreakpointWord|])
  }

  /** The longest run of digits at the start of `s` (greedy `\d+`). */
  function DigitRun(s: string): (run: string)
    ensures IsPrefix(run, s) && AllDigits(run)
    ensures |run| == |s| || !IsDigit(s[|run|])
    decreases |s|
  {
    if |s| > 0 && IsDigit(s[0]) then [s[0]] + DigitRun(s[1..]) else ""
  }

  /** The number captured by the first match of `Breakpoint (\d+)` at or after `from`. */
  function FindBreakpointFrom(s: string, from: nat): (r: Option<string>)
    requires from <= |s|
    ensures r.None? <==> forall j :: from <= j < |s| ==> !MatchesAt(s, j)
    ensures r.Some? ==>
      exists j :: (from <= j < |s| && MatchesAt(s, j)
        && (forall k :: from <= k < j ==> !MatchesAt(s, k))
        && r.value == DigitRun(s[j + |BreakpointWord|..]))
    decreases |s| - from
  {
    if from == |s| then None
    else if MatchesAt(s, from) then Some(DigitRun(s[from + |BreakpointWord|..]))
    else FindBreakpointFrom(s, from + 1)
  }

  /** `re.search(r"Breakpoint (\d+)", output).group(1)`, or `None` without a match. */
  function BreakpointNumber(output: string): (r: Option<string>)
    ensures r.None? <==> forall j :: 0 <= j < |output| ==> !MatchesAt(output, j)
    ensures r.Some? ==>
      exists j :: (0 <= j < |output| && MatchesAt(output, j)
        && (forall k :: 0 <= k < j ==> !MatchesAt(output, k))
        && r.value == DigitRun(output[j + |BreakpointWord|..]))
    ensures r.Some? ==> r.value != "" && AllDigits(r.value)
  {
    FindBreakpointFrom(output, 0)
  }

  /** The `condition` command follows a `break` only when a condition is given
      and the reply names the breakpoint's number. */
  function ConditionCommand(condition: Option<string>, breakOutput: string): (command: Option<string>)
    ensures command.Some? <==> Present(condition) && BreakpointNumber(breakOutput).Some?
    ensures command.Some? ==>
      command.value == "condition " + BreakpointNumber(breakOutput).value + " " + condition.value
  {
    if Present(condition) then
      match BreakpointNumber(breakOutput)
      case Some(n) => Some("condition " + n + " " + condition.value)
      case None => None
    else None
  }

  /** A string of digits followed by a non-digit is its own digit run. */
  lemma {:induction false} DigitRunOfDigits(digits: string, tail: string)
    requires AllDigits(digits)
    requires tail == "" || !IsDigit(tail[0])
    ensures DigitRun(digits + tail) == digits
    decreases |digits|
  {
    if |digits| > 0 {
      assert (digits + tail)[1..] == digits[1..] + tail;
      DigitRunOfDigits(digits[1..], tail);
    } else {
      assert digits + tail == tail;
    }
  }

  /** gdb's confirmation `Breakpoint N at ...` yields `N`. */
  lemma ConfirmationGivesNumber(number: string, tail: string)
    requires number != "" && AllDigits(number)
    requires tail == "" || !IsDigit(tail[0])
    ensures BreakpointNumber(BreakpointWord + number + tail) == Some(number)
  {
    var s := BreakpointWord + number + tail;
    assert s[..|BreakpointWord|] == BreakpointWord;
    assert s[|BreakpointWord|] == number[0];
    assert MatchesAt(s, 0);
    assert s[|BreakpointWord|..] == number + tail;
    DigitRunOfDigits(number, tail);
  }
}

=== FILE: framing.dfy ===
/** Reply framing: how the session core decides where one reply in gdb's
    output ends. gdb's output is a stream of lines, each as `readline()`
    returns it with its newline, so a blank line is `"\n"`. Only the empty
    string means the stream has ended (that is what `readline()` returns at
    end of file), and running off the end of the sequence means the same.

    Two framing passes exist: the readiness pass run once after gdb starts,
    which stops only on the idle prompt, and the reply pass run after every
    command, which also stops on the machine-interface result records
    `^done` and `^error`. Both test by substring containment anywhere in the
    line, and both keep the line that stopped them. */
module Framing {
  import opened Text

  /** gdb's idle prompt. */
  const Prompt := "(gdb)"
  /** Machine-interface result record of a command that succeeded. */
  const DoneRecord := "^done"
  /** Machine-interface result record of a command that failed. */
  const ErrorRecord := "^error"

  datatype Mode = Readiness | CommandReply

  /** The line ends the reply being collected. */
  predicate EndsFrame(mode: Mode, line: string) {
    match mode
    case Readiness => Contains(line, Prompt)
    case CommandReply => Contains(line, Prompt) || Contains(line, DoneRecord) || Contains(line, ErrorRecord)
  }

  /** The next read reports end of stream. */
  predicate AtEndOfStream(stream: seq<string>) {
    |stream| == 0 || stream[0] == ""
  }

  /** One reply and the lines left unread after it. */
  datatype Frame = Frame(reply: seq<string>, rest: seq<string>)

  /** What one framing pass must produce, stated without running it: the reply
      is a prefix of the stream made of real lines, none before the last ends
      the frame, and the pass stopped either on a line that ends the frame or
      at end of stream. */
  ghost predicate IsFrameOf(mode: Mode, stream: seq<string>, f: Frame) {
    && f.reply + f.rest == stream
    && (forall i :: 0 <= i < |f.reply| ==> f.reply[i] != "")
    && (forall i :: 0 <= i < |f.reply| - 1 ==> !EndsFrame(mode, f.reply[i]))
    && ((|f.reply| > 0 && EndsFrame(mode, f.reply[|f.reply| - 1])) || AtEndOfStream(f.rest))
  }

  /** One framing pass over the stream. Nothing is lost or reordered: the
      reply followed by the unread rest is the stream. */
  function Collect(mode: Mode, stream: seq<string>): (f: Frame)
    ensures f.reply + f.rest == stream
    decreases |stream|
  {
    if AtEndOfStream(stream) then Frame([], stream)
    else if EndsFrame(mode, stream[0]) then Frame([stream[0]], stream[1..])
    else
      var f := Collect(mode, stream[1..]);
      Frame([stream[0]] + f.reply, f.rest)
  }

  /** The pass meets its description: it stops at the first line that ends
      the frame, or at end of stream, and reads nothing further. */
  lemma {:induction false} CollectIsFrame(mode: Mode, stream: seq<string>)
    ensures IsFrameOf(mode, stream, Collect(mode, stream))
    decreases |stream|
  {
    if !AtEndOfStream(stream) && !EndsFrame(mode, stream[0]) {
      var tail := Collect(mode, stream[1..]);
      CollectIsFrame(mode, stream[1..]);
      var f := Collect(mode, stream);
      assert f.reply == [stream[0]] + tail.reply;
      assert forall i :: 1 <= i < |f.reply| ==> f.reply[i] == tail.reply[i - 1];
    }
  }

  /** The description `IsFrameOf` admits exactly one frame, the one `Collect` returns. */
  lemma {:induction false} FrameIsUnique(mode: Mode, stream: seq<string>, f: Frame)
    requires IsFrameOf(mode, stream, f)
    ensures f == Collect(mode, stream)
    decreases |stream|
  {
    assert |f.reply| > 0 ==> f.reply[0] == stream[0];
    assert |f.reply| == 0 ==> f.rest == stream;
    if !AtEndOfStream(stream) && !EndsFrame(mode, stream[0]) {
      var tail := Frame(f.reply[1..], f.rest);
      assert f.reply[1..] + f.rest == stream[1..];
      assert forall i :: 0 <= i < |tail.reply| ==> tail.reply[i] == f.reply[i + 1];
      FrameIsUnique(mode, stream[1..], tail);
      assert f.reply == [stream[0]] + f.reply[1..];
    }
  }

  /** The reply and what is left unread, joined back, are the whole stream's text. */
  lemma FrameTextInOrder(mode: Mode, stream: seq<string>)
    ensures Concat(Collect(mode, stream).reply) + Concat(Collect(mode, stream).rest) == Concat(stream)
  {
    var f := Collect(mode, stream);
    ConcatAppend(f.reply, f.rest);
  }

  /** Lines that do not end the frame, then one that does: the pass returns
      exactly those lines and leaves everything after them unread. */
  lemma StopsAtFirstEnd(mode: Mode, body: seq<string>, last: string, more: seq<string>)
    requires forall i :: 0 <= i < |body| ==> body[i] != "" && !EndsFrame(mode, body[i])
    requires last != "" && EndsFrame(mode, last)
    ensures Collect(mode, body + [last] + more) == Frame(body + [last], more)
  {
    var f := Frame(body + [last], more);
    assert (body + [last])[|body|] == last;
    FrameIsUnique(mode, body + [last] + more, f);
  }

  /** In machine-interface mode gdb follows a `^done` record with a prompt
      line. The reply pass stops at `^done`, so the prompt line is left
      unread and is the whole reply to the next command. */
  lemma PromptAfterDoneIsNextReply(output: string, done: string, prompt: string, more: seq<string>)
    requires output != "" && !EndsFrame(CommandReply, output)
    requires done != "" && Contains(done, DoneRecord)
    requires prompt != "" && Contains(prompt, Prompt)
    ensures Collect(CommandReply, [output, done, prompt] + more) == Frame([output, done], [prompt] + more)
    ensures Collect(CommandReply, [prompt] + more) == Frame([prompt], more)
  {
    assert [output, done, prompt] + more == [output] + [done] + ([prompt] + more);
    StopsAtFirstEnd(CommandReply, [output], done, [prompt] + more);
    StopsAtFirstEnd(CommandReply, [], prompt, more);
  }

  /** At end of stream the pass returns an empty reply and reads nothing. */
  lemma EndOfStreamGivesEmptyReply(mode: Mode, stream: seq<string>)
    requires AtEndOfStream(stream)
    ensures Collect(mode, stream) == Frame([], stream)
  {
  }

  /** Every line that ends the readiness pass also ends a reply pass, so a
      reply pass never reads further than a readiness pass over the same lines. */
  lemma {:induction false} ReplyEndsNoLaterThanReadiness(stream: seq<string>)
    ensures Collect(CommandReply, stream).reply <= Collect(Readiness, stream).reply
    decreases |stream|
  {
    if !AtEndOfStream(stream) && !EndsFrame(CommandReply, stream[0]) {
      ReplyEndsNoLaterThanReadiness(stream[1..]);
    }
  }

  /** A line holding a `^done` result record but not the prompt ends a
      command reply, and the readiness pass reads past it. */
  lemma DoneRecordEndsOnlyReplies(line: string, more: seq<string>)
    requires Contains(line, DoneRecord) && !Contains(line, Prompt)
    ensures EndsFrame(CommandReply, line) && !EndsFrame(Readiness, line)
    ensures Collect(CommandReply, [line] + more) == Frame([line], more)
    ensures Collect(Readiness, [line] + more).reply == [line] + Collect(Readiness, more).reply
  {
    RecordEndsOnlyReplies(line, more);
  }

  /** The same for a line holding an `^error` result record. */
  lemma ErrorRecordEndsOnlyReplies(line: string, more: seq<string>)
    requires Contains(line, ErrorRecord) && !Contains(line, Prompt)
    ensures EndsFrame(CommandReply, line) && !EndsFrame(Readiness, line)
    ensures Collect(CommandReply, [line] + more) == Frame([line], more)
    ensures Collect(Readiness, [line] + more).reply == [line] + Collect(Readiness, more).reply
  {
    RecordEndsOnlyReplies(line, more);
  }

  /** A non-empty line that ends a reply but not readiness: the reply pass
      stops on it, the readiness pass keeps it and goes on. */
  lemma RecordEndsOnlyReplies(line: string, more: seq<string>)
    requires line != "" && EndsFrame(CommandReply, line) && !EndsFrame(Readiness, line)
    ensures Collect(CommandReply, [line] + more) == Frame([line], more)
    ensures Collect(Readiness, [line] + more).reply == [line] + Collect(Readiness, more).reply
  {
    assert ([line] + more)[1..] == more;
  }

  /** A non-empty line without the prompt never stops the readiness pass. */
  lemma ReadinessReadsPast(line: string, stream: seq<string>)
    requires line != "" && !Contains(line, Prompt)
    ensures Collect(Readiness, [line] + stream).reply == [line] + Collect(Readiness, stream).reply
    ensures Collect(Readiness, [line] + stream).rest == Collect(Readiness, stream).rest
  {
    assert ([line] + stream)[1..] == stream;
  }

  /** A non-empty line holding none of the prompt, `^done` or `^error` never
      stops a reply pass: it is kept and reading goes on. */
  lemma ReplyReadsPast(line: string, stream: seq<string>)
    requires line != "" && !Contains(line, Prompt) && !Contains(line, DoneRecord) && !Contains(line, ErrorRecord)
    ensures Collect(CommandReply, [line] + stream).reply == [line] + Collect(CommandReply, stream).reply
    ensures Collect(CommandReply, [line] + stream).rest == Collect(CommandReply, stream).rest
  {
    assert ([line] + stream)[1..] == stream;
  }

  /** The loop of the source: read a line, stop at end of stream, keep the
      line, stop if it ends the frame. Returns the joined reply and how many
      lines were consumed. */
  method ReadFrame(mode: Mode, stream: seq<string>) returns (text: string, consumed: nat)
    ensures consumed <= |stream|
    ensures Collect(mode, stream) == Frame(stream[..consumed], stream[consumed..])
    ensures text == Concat(stream[..consumed])
  {
    var output: seq<string> := [];
    var i := 0;
    while true
      invariant 0 <= i <= |stream|
      invariant output == stream[..i]
      invariant forall j :: 0 <= j < i ==> stream[j] != "" && !EndsFrame(mode, stream[j])
      decreases |stream| - i
    {
      var line := if i < |stream| then stream[i] else "";
      if line == "" {
        break;
      }
      output := output + [line];
      i := i + 1;
      if EndsFrame(mode, line) {
        break;
      }
    }
    assert stream[..i] + stream[i..] == stream;
    FrameIsUnique(mode, stream, Frame(output, stream[i..]));
    text := Concat(output);
    consumed := i;
  }
}

=== FILE: outcomes.dfy ===
/** Optional values, success/error outcomes and Python truthiness, shared by
    the rest of the model. */
module Outcomes {

  /** Python's `Optional[T]`: `None`, or a value. */
  datatype Option<+T> = None | Some(value: T)

  /** The outcome of a session-core operation: a value, or the message of the
      `ValueError` the source raises instead. */
  datatype Result<+T> = Ok(value: T) | Err(message: string)

  /** Python truthiness of an `Optional[str]`: not `None` and not empty. */
  predicate Present(s: Option<string>) {
    s.Some? && s.value != ""
  }

  /** Python truthiness of an `Optional[int]`: not `None` and not zero. */
  predicate PresentInt(n: Option<int>) {
    n.Some? && n.value != 0
  }
}

=== FILE: sessions.dfy ===
/** The session registry and the command executor: the table of live gdb
    sessions keyed by session id, starting a session, looking one up,
    removing one, and sending one command and framing its reply.

    The subprocess is abstracted to a record: whether its standard input and
    output pipes exist, the text written to its input so far, the output
    lines it has produced that nobody has read yet, and whether it has
    exited. Spawning it and generating the session id are parameters. */
module Sessions {
  import opened Outcomes
  import opened Text
  import opened Framing

  /** A gdb subprocess as the core sees it. `pending` is every line gdb will
      write to its output that has not been read yet; the empty string
      `""` in it (not a blank line `"\n"`) marks end of stream. `exited` is
      what polling the process reports. */
  datatype Process = Process(
    hasStdin: bool,
    hasStdout: bool,
    sent: seq<string>,
    pending: seq<string>,
    exited: bool)

  /** One tracked gdb subprocess and its metadata. */
  datatype Session = Session(
    process: Process,
    ready: bool,
    target: Option<string>,
    workingDir: Option<string>,
    id: string)

  /** The process-wide table of live sessions. */
  type Registry = map<string, Session>

  /** The registry after an operation, and what the operation returned. */
  datatype Outcome<T> = Outcome(registry: Registry, result: Result<T>)

  /** What spawning gdb produced: a process, or the error spawning raised. */
  datatype Spawn = Spawned(process: Process) | SpawnFailed(reason: string)

  const InvalidSessionId := "Invalid session ID"
  const StreamsUnavailable := "Session process streams are not available"
  const StdoutUnavailable := "Failed to initialize GDB stdout stream"

  /** `after` is what one framing pass in `mode` leaves unread of `before`,
      and `text` is the joined text of the lines it consumed. */
  ghost predicate ReadOnePass(mode: Mode, before: seq<string>, after: seq<string>, text: string) {
    && |after| <= |before|
    && IsFrameOf(mode, before, Frame(before[..|before| - |after|], after))
    && text == Concat(before[..|before| - |after|])
  }

  /** A frame's unread rest is what its pass leaves, and its reply text is what it read. */
  lemma CollectReadsOnePass(mode: Mode, stream: seq<string>)
    ensures ReadOnePass(mode, stream, Collect(mode, stream).rest, Concat(Collect(mode, stream).reply))
  {
    var f := Collect(mode, stream);
    CollectIsFrame(mode, stream);
    assert stream[..|stream| - |f.rest|] == f.reply;
  }

  /** `texts` are the replies of successive reply passes over `before`, each
      starting where the previous one stopped, and `after` is what the last
      pass left unread. */
  ghost predicate ReadsInTurn(before: seq<string>, after: seq<string>, texts: seq<string>)
    decreases |texts|
  {
    if |texts| == 0 then after == before
    else
      exists k ::
        && 0 <= k <= |before|
        && IsFrameOf(CommandReply, before, Frame(before[..k], before[k..]))
        && texts[0] == Concat(before[..k])
        && ReadsInTurn(before[k..], after, texts[1..])
  }

  /** One reply pass followed by passes in turn is passes in turn. */
  lemma ReadsInTurnCons(before: seq<string>, mid: seq<string>, after: seq<string>, text: string, texts: seq<string>)
    requires ReadOnePass(CommandReply, before, mid, text)
    requires ReadsInTurn(mid, after, texts)
    ensures ReadsInTurn(before, after, [text] + texts)
  {
    var k := |before| - |mid|;
    assert before[..k] + mid == before;
    assert before[k..] == mid;
    assert ([text] + texts)[1..] == texts;
  }

  /** Only the process's input and output streams differ between `s` and `t`. */
  predicate SameBesidesStreams(s: Session, t: Session) {
    t == s.(process := s.process.(sent := t.process.sent, pending := t.process.pending))
  }

  /** The registries hold the same ids, and agree on every id except `id`. */
  ghost predicate OthersUnchanged(before: Registry, after: Registry, id: string) {
    && after.Keys == before.Keys
    && forall k :: k in before && k != id ==> after[k] == before[k]
  }

  /** Start a gdb session under `id`: spawn gdb, run the readiness pass over
      its banner, then register the session. The startup text is returned. */
  function Start(reg: Registry, id: string, workingDir: Option<string>, spawn: Spawn): (r: Outcome<string>)
    ensures spawn.SpawnFailed? ==> r == Outcome(reg, Err(spawn.reason))
    ensures spawn.Spawned? && !spawn.process.hasStdout ==> r == Outcome(reg, Err(StdoutUnavailable))
    ensures spawn.Spawned? && spawn.process.hasStdout ==>
      r.result.Ok? && id in r.registry && r.registry.Keys == reg.Keys + {id}
    ensures spawn.Spawned? && spawn.process.hasStdout ==>
      var s := r.registry[id];
      && s.id == id && s.workingDir == workingDir && s.target == None && !s.ready
      && s.process == spawn.process.(pending := s.process.pending)
      && ReadOnePass(Readiness, spawn.process.pending, s.process.pending, r.result.value)
    ensures forall k :: k in reg && k != id ==> k in r.registry && r.registry[k] == reg[k]
  {
    match spawn
    case SpawnFailed(reason) => Outcome(reg, Err(reason))
    case Spawned(p) =>
      if !p.hasStdout then Outcome(reg, Err(StdoutUnavailable))
      else
        var f := Collect(Readiness, p.pending);
        CollectReadsOnePass(Readiness, p.pending);
        var session := Session(p.(pending := f.rest), false, None, workingDir, id);
        Outcome(reg[id := session], Ok(Concat(f.reply)))
  }

  /** Starting under an id not yet in use adds exactly one session. */
  lemma StartWithFreshIdGrows(reg: Registry, id: string, workingDir: Option<string>, spawn: Spawn)
    requires id !in reg && spawn.Spawned? && spawn.process.hasStdout
    ensures |Start(reg, id, workingDir, spawn).registry| == |reg| + 1
  {
    var after := Start(reg, id, workingDir, spawn).registry;
    assert after.Keys == reg.Keys + {id};
  }

  /** Look a session up; absence is an ordinary outcome. */
  function Get(reg: Registry, id: string): (r: Option<Session>)
    ensures r.Some? <==> id in reg
    ensures r.Some? ==> r.value == reg[id]
  {
    if id in reg then Some(reg[id]) else None
  }

  /** Remove a session if it is present; do nothing otherwise. */
  function Remove(reg: Registry, id: string): (r: Registry)
    ensures id !in r
    ensures r.Keys == reg.Keys - {id}
    ensures forall k :: k in r ==> r[k] == reg[k]
  {
    if id in reg then reg - {id} else reg
  }

  /** Removing twice is removing once, and afterwards lookup finds nothing. */
  lemma RemoveIsIdempotent(reg: Registry, id: string)
    ensures Remove(Remove(reg, id), id) == Remove(reg, id)
    ensures Get(Remove(reg, id), id) == None
    ensures id !in reg ==> Remove(reg, id) == reg
  {
  }

  /** The session exists and both of its pipes are available. */
  predicate CanExec(reg: Registry, id: string) {
    id in reg && reg[id].process.hasStdin && reg[id].process.hasStdout
  }

  /** Write one command, newline-terminated, to the session's gdb and run one
      reply pass over its output. */
  function Send(s: Session, command: string): (r: (Session, string))
    ensures SameBesidesStreams(s, r.0)
    ensures r.0.process.sent == s.process.sent + [command + "\n"]
    ensures |r.0.process.pending| <= |s.process.pending|
  {
    var f := Collect(CommandReply, s.process.pending);
    (s.(process := s.process.(sent := s.process.sent + [command + "\n"], pending := f.rest)), Concat(f.reply))
  }

  /** Send one command to a session and collect its reply. */
  function Exec(reg: Registry, id: string, command: string): (r: Outcome<string>)
    ensures id !in reg ==> r == Outcome(reg, Err(InvalidSessionId))
    ensures id in reg && !CanExec(reg, id) ==> r == Outcome(reg, Err(StreamsUnavailable))
    ensures CanExec(reg, id) ==>
      r.result.Ok? && OthersUnchanged(reg, r.registry, id) && SameBesidesStreams(reg[id], r.registry[id])
    ensures CanExec(reg, id) ==>
      r.registry[id].process.sent == reg[id].process.sent + [command + "\n"]
  {
    match Get(reg, id)
    case None => Outcome(reg, Err(InvalidSessionId))
    case Some(s) =>
      if !s.process.hasStdin || !s.process.hasStdout then Outcome(reg, Err(StreamsUnavailable))
      else
        var (s', reply) := Send(s, command);
        Outcome(reg[id := s'], Ok(reply))
  }

  /** The reply `Exec` returns is one reply pass over the session's unread
      output, and what that pass leaves unread stays pending. */
  lemma ExecReadsOneReply(reg: Registry, id: string, command: string)
    requires CanExec(reg, id)
    ensures var r := Exec(reg, id, command);
      ReadOnePass(CommandReply, reg[id].process.pending, r.registry[id].process.pending, r.result.value)
  {
    CollectReadsOnePass(CommandReply, reg[id].process.pending);
  }

  /** Each command as it is written to gdb's input. */
  function AsLines(commands: seq<string>): (lines: seq<string>)
    ensures |lines| == |commands|
    ensures forall i :: 0 <= i < |commands| ==> lines[i] == commands[i] + "\n"
    decreases |commands|
  {
    if |commands| == 0 then [] else [commands[0] + "\n"] + AsLines(commands[1..])
  }

  /** Two steps that each touch only session `id`, and only its streams,
      together touch only session `id`, and only its streams. */
  lemma StepsCompose(reg: Registry, mid: Registry, end: Registry, id: string)
    requires id in reg
    requires OthersUnchanged(reg, mid, id) && SameBesidesStreams(reg[id], mid[id])
    requires OthersUnchanged(mid, end, id) && SameBesidesStreams(mid[id], end[id])
    ensures OthersUnchanged(reg, end, id) && SameBesidesStreams(reg[id], end[id])
  {
  }

  /** Send several commands to one session in order. */
  function SendAll(s: Session, commands: seq<string>): (r: (Session, seq<string>))
    ensures SameBesidesStreams(s, r.0)
    ensures r.0.process.sent == s.process.sent + AsLines(commands)
    ensures |r.1| == |commands|
    decreases |commands|
  {
    if |commands| == 0 then (s, [])
    else
      var (next, reply) := Send(s, commands[0]);
      var (last, replies) := SendAll(next, commands[1..]);
      (last, [reply] + replies)
  }

  /** The replies `SendAll` returns are successive reply passes over the
      session's unread output, and what the last one left stays pending. */
  lemma {:induction false} SendAllReadsInTurn(s: Session, commands: seq<string>)
    ensures ReadsInTurn(s.process.pending, SendAll(s, commands).0.process.pending, SendAll(s, commands).1)
    decreases |commands|
  {
    if |commands| > 0 {
      var (next, reply) := Send(s, commands[0]);
      CollectReadsOnePass(CommandReply, s.process.pending);
      SendAllReadsInTurn(next, commands[1..]);
      var (last, replies) := SendAll(next, commands[1..]);
      ReadsInTurnCons(s.process.pending, next.process.pending, last.process.pending, reply, replies);
    }
  }

  /** Send several commands in order, stopping at the first that fails. */
  function ExecAll(reg: Registry, id: string, commands: seq<string>): (r: Outcome<seq<string>>)
    ensures |commands| > 0 && id !in reg ==> r == Outcome(reg, Err(InvalidSessionId))
    ensures |commands| > 0 && id in reg && !CanExec(reg, id) ==> r == Outcome(reg, Err(StreamsUnavailable))
    ensures CanExec(reg, id) ==>
      r.result.Ok? && |r.result.value| == |commands| && OthersUnchanged(reg, r.registry, id)
    ensures CanExec(reg, id) ==>
      SameBesidesStreams(reg[id], r.registry[id])
      && r.registry[id].process.sent == reg[id].process.sent + AsLines(commands)
  {
    if |commands| == 0 then Outcome(reg, Ok([]))
    else
      match Get(reg, id)
      case None => Outcome(reg, Err(InvalidSessionId))
      case Some(s) =>
        if !s.process.hasStdin || !s.process.hasStdout then Outcome(reg, Err(StreamsUnavailable))
        else
          var (s', replies) := SendAll(s, commands);
          Outcome(reg[id := s'], Ok(replies))
  }

  /** The replies `ExecAll` returns are successive reply passes over the
      session's unread output, one per command, and what the last one left
      stays pending. */
  lemma ExecAllReadsInTurn(reg: Registry, id: string, commands: seq<string>)
    requires CanExec(reg, id)
    ensures var r := ExecAll(reg, id, commands);
      ReadsInTurn(reg[id].process.pending, r.registry[id].process.pending, r.result.value)
  {
    if |commands| > 0 {
      SendAllReadsInTurn(reg[id], commands);
    }
  }

  /** Sending several commands is calling `Exec` on each in turn: the first
      either fails, and nothing more is sent, or its reply heads the replies
      of the rest, sent to the registry it left. */
  lemma ExecAllIsExecInTurn(reg: Registry, id: string, commands: seq<string>)
    requires |commands| > 0
    ensures var first := Exec(reg, id, commands[0]);
      var all := ExecAll(reg, id, commands);
      (match first.result
       case Err(message) => all == Outcome(first.registry, Err(message))
       case Ok(reply) =>
         var rest := ExecAll(first.registry, id, commands[1..]);
         rest.result.Ok? && all == Outcome(rest.registry, Ok([reply] + rest.result.value)))
  {
    if CanExec(reg, id) {
      var s := reg[id];
      var (next, reply) := Send(s, commands[0]);
      var (last, replies) := SendAll(next, commands[1..]);
      assert SendAll(s, commands) == (last, [reply] + replies);
      assert reg[id := next][id := last] == reg[id := last];
    }
  }
}

=== FILE: text.dfy ===
/** The string operations the session core relies on, written over
    `seq<char>`: substring containment (`pat in s`), `"".join`, `sep.join`,
    `s.split(c)` and `str(n)`. */
module Text {

  /** `p` is a prefix of `s` (Python's `s.startswith(p)`). */
  predicate IsPrefix(p: string, s: string) {
    |p| <= |s| && s[..|p|] == p
  }

  /** Python's `pat in s`, written recursively so that it is executable. */
  predicate Contains(s: string, pat: string)
    decreases |s|
  {
    IsPrefix(pat, s) || (|s| > 0 && Contains(s[1..], pat))
  }

  /** `pat` occurs in `s` starting at index `i`. */
  ghost predicate OccursAt(s: string, pat: string, i: int) {
    0 <= i && i + |pat| <= |s| && s[i..i + |pat|] == pat
  }

  lemma {:induction false} ContainsHasOccurrence(s: string, pat: string)
    requires Contains(s, pat)
    ensures exists i :: OccursAt(s, pat, i)
    decreases |s|
  {
    if IsPrefix(pat, s) {
      assert OccursAt(s, pat, 0);
    } else {
      ContainsHasOccurrence(s[1..], pat);
      var i :| OccursAt(s[1..], pat, i);
      assert s[1..][i..i + |pat|] == s[i + 1..i + 1 + |pat|];
      assert OccursAt(s, pat, i + 1);
    }
  }

  lemma {:induction false} OccurrenceIsContained(s: string, pat: string, i: int)
    requires OccursAt(s, pat, i)
    ensures Contains(s, pat)
    decreases i
  {
    if i > 0 {
      assert s[1..][i - 1..i - 1 + |pat|] == s[i..i + |pat|];
      OccurrenceIsContained(s[1..], pat, i - 1);
    }
  }

  /** `Contains` is exactly the positional definition of a substring. */
  lemma ContainsIffOccurs(s: string, pat: string)
    ensures Contains(s, pat) <==> exists i :: OccursAt(s, pat, i)
  {
    if Contains(s, pat) {
      ContainsHasOccurrence(s, pat);
    }
    forall i | OccursAt(s, pat, i)
      ensures Contains(s, pat)
    {
      OccurrenceIsContained(s, pat, i);
    }
  }

  /** Python's `"".join(lines)`. */
  function Concat(lines: seq<string>): string
    decreases |lines|
  {
    if |lines| == 0 then "" else lines[0] + Concat(lines[1..])
  }

  /** Joining two runs of lines is joining each and putting the texts side by side. */
  lemma {:induction false} ConcatAppend(a: seq<string>, b: seq<string>)
    ensures Concat(a + b) == Concat(a) + Concat(b)
    decreases |a|
  {
    if |a| == 0 {
      assert a + b == b;
    } else {
      assert (a + b)[1..] == a[1..] + b;
      ConcatAppend(a[1..], b);
    }
  }

  /** Python's `sep.join(parts)`. */
  function Join(parts: seq<string>, sep: string): string
    decreases |parts|
  {
    if |parts| == 0 then ""
    else if |parts| == 1 then parts[0]
    else parts[0] + sep + Join(parts[1..], sep)
  }

  /** Python's `s.split(c)` for a one-character separator: the pieces between
      separators, empty pieces kept. */
  function Split(s: string, c: char): (pieces: seq<string>)
    ensures |pieces| > 0
    ensures forall i :: 0 <= i < |pieces| ==> c !in pieces[i]
    decreases |s|
  {
    if |s| == 0 then [""]
    else if s[0] == c then [""] + Split(s[1..], c)
    else
      var rest := Split(s[1..], c);
      [[s[0]] + rest[0]] + rest[1..]
  }

  lemma {:induction false} SplitWithoutSeparator(x: string, c: char)
    requires c !in x
    ensures Split(x, c) == [x]
    decreases |x|
  {
    if |x| > 0 {
      assert c !in x[1..];
      SplitWithoutSeparator(x[1..], c);
      assert [x[0]] + x[1..] == x;
    }
  }

  /** Splitting around one separator splits each side independently. */
  lemma {:induction false} SplitAround(x: string, y: string, c: char)
    ensures Split(x + [c] + y, c) == Split(x, c) + Split(y, c)
    decreases |x|
  {
    var s := x + [c] + y;
    if |x| == 0 {
      assert s == [c] + y;
      assert s[1..] == y;
    } else {
      assert s[0] == x[0];
      assert s[1..] == x[1..] + [c] + y;
      SplitAround(x[1..], y, c);
    }
  }

  /** Splitting a separator-join gives back the parts, when no part holds the separator. */
  lemma {:induction false} SplitJoin(parts: seq<string>, c: char)
    requires |parts| > 0
    requires forall i :: 0 <= i < |parts| ==> c !in parts[i]
    ensures Split(Join(parts, [c]), c) == parts
    decreases |parts|
  {
    if |parts| == 1 {
      SplitWithoutSeparator(parts[0], c);
    } else {
      SplitAround(parts[0], Join(parts[1..], [c]), c);
      SplitWithoutSeparator(parts[0], c);
      SplitJoin(parts[1..], c);
      assert [parts[0]] + parts[1..] == parts;
    }
  }

  /** Two words without the separator, joined by it, split back into the two words. */
  lemma SplitTwoWords(x: string, y: string, c: char)
    requires c !in x && c !in y
    ensures Split(x + [c] + y, c) == [x, y]
  {
    SplitAround(x, y, c);
    SplitWithoutSeparator(x, c);
    SplitWithoutSeparator(y, c);
  }

  /** Parts joined onto a base after a separator split back into the base's
      pieces followed by the parts. */
  lemma SplitJoinedAfter(base: string, parts: seq<string>, c: char)
    requires |parts| > 0
    requires forall i :: 0 <= i < |parts| ==> c !in parts[i]
    ensures Split(base + [c] + Join(parts, [c]), c) == Split(base, c) + parts
  {
    SplitAround(base, Join(parts, [c]), c);
    SplitJoin(parts, c);
  }

  /** Joining the pieces of a split with the separator gives back the string. */
  lemma {:induction false} JoinSplit(s: string, c: char)
    ensures Join(Split(s, c), [c]) == s
    decreases |s|
  {
    if |s| > 0 {
      var rest := Split(s[1..], c);
      JoinSplit(s[1..], c);
      if s[0] == c {
        assert ([""] + rest)[1..] == rest;
        assert s == [c] + s[1..];
      } else {
        var pieces := [[s[0]] + rest[0]] + rest[1..];
        assert pieces[1..] == rest[1..];
        if |rest| > 1 {
          assert rest[0] + [c] + Join(rest[1..], [c]) == s[1..];
        }
        assert s == [s[0]] + s[1..];
      }
    }
  }

  predicate IsDigit(ch: char) {
    '0' <= ch <= '9'
  }

  function DigitChar(d: nat): char
    requires d < 10
  {
    ('0' as int + d) as char
  }

  function DigitValue(ch: char): nat
    requires IsDigit(ch)
  {
    ch as int - '0' as int
  }

  predicate AllDigits(s: string) {
    forall i :: 0 <= i < |s| ==> IsDigit(s[i])
  }

  /** The number a string of decimal digits denotes. */
  function DecimalValue(s: string): nat
    requires AllDigits(s)
    decreases |s|
  {
    if |s| == 0 then 0 else DecimalValue(s[..|s| - 1]) * 10 + DigitValue(s[|s| - 1])
  }

  /** Python's `str(n)` for a natural number. */
  function ShowNat(n: nat): (r: string)
    ensures |r| > 0 && AllDigits(r)
    ensures |r| == 1 <==> n < 10
    ensures |r| > 1 ==> r[0] != '0'
    decreases n
  {
    if n < 10 then [DigitChar(n)] else ShowNat(n / 10) + [DigitChar(n % 10)]
  }

  /** `str(n)` reads back as `n`. */
  lemma {:induction false} ShowNatDenotes(n: nat)
    ensures DecimalValue(ShowNat(n)) == n
    decreases n
  {
    if n >= 10 {
      var r := ShowNat(n);
      assert r[..|r| - 1] == ShowNat(n / 10);
      ShowNatDenotes(n / 10);
    }
  }

  /** Python's `str(n)` (also `f"{n}"`) for any integer: a minus sign before
      the digits of a negative number. */
  function ShowInt(n: int): string {
    if n < 0 then "-" + ShowNat(-n) else ShowNat(n)
  }

  /** `str(n)` is a sign and the digits of `|n|`, and reads back as `n`. */
  lemma ShowIntDenotes(n: int)
    ensures n >= 0 ==> AllDigits(ShowInt(n)) && DecimalValue(ShowInt(n)) == n
    ensures n < 0 ==> ShowInt(n)[0] == '-' && AllDigits(ShowInt(n)[1..])
                      && DecimalValue(ShowInt(n)[1..]) == -n
  {
    if n >= 0 {
      ShowNatDenotes(n);
    } else {
      assert ShowInt(n)[1..] == ShowNat(-n);
      ShowNatDenotes(-n);
    }
  }
}

=== FILE: tools.dfy ===
/** The tool operations over the registry: loading a program, setting a
    breakpoint with an optional condition, listing the sessions and
    terminating one. Every tool answers with a response value instead of
    raising: the replies it collected, success, or an error message. */
module Tools {
  import opened Outcomes
  import opened Text
  import opened Sessions
  import opened CommandText

  /** What a tool hands back to its caller: the gdb replies it collected (the
      surrounding prose is not modelled), success, or an error message. */
  datatype Response = Replies(outputs: seq<string>) | Succeeded | Failed(message: string)

  /** The registry after a tool ran, and its response. */
  datatype ToolResult = ToolResult(registry: Registry, response: Response)

  /** Lift the outcome of a run of commands into a tool response. */
  function Respond(outcome: Outcome<seq<string>>): (r: ToolResult)
    ensures r.registry == outcome.registry
    ensures outcome.result.Ok? <==> r.response.Replies?
    ensures outcome.result.Ok? ==> r.response.outputs == outcome.result.value
    ensures outcome.result.Err? ==> r.response == Failed(outcome.result.message)
  {
    match outcome.result
    case Ok(outputs) => ToolResult(outcome.registry, Replies(outputs))
    case Err(message) => ToolResult(outcome.registry, Failed(message))
  }

  // ----- gdb_load -----

  /** Normalise the program path, record it as the session's target, then
      send `file "<path>"`, `set args ...` when there are arguments, and `run`. */
  function Load(reg: Registry, id: string, program: string, arguments: Option<seq<string>>): (r: ToolResult)
    ensures id !in reg ==> r == ToolResult(reg, Failed(InvalidSessionId))
    ensures id in reg ==>
      && r.registry.Keys == reg.Keys
      && (forall k :: k in reg && k != id ==> r.registry[k] == reg[k])
      && r.registry[id].target == Some(NormalizePath(reg[id].workingDir, program))
      && r.registry[id].workingDir == reg[id].workingDir
    ensures id in reg ==>
      SameBesidesStreams(reg[id].(target := Some(NormalizePath(reg[id].workingDir, program))), r.registry[id])
    ensures id in reg && !CanExec(reg, id) ==>
      r.response == Failed(StreamsUnavailable) && r.registry[id].process == reg[id].process
    ensures CanExec(reg, id) ==>
      var commands := LoadCommands(NormalizePath(reg[id].workingDir, program), arguments);
      && r.response.Replies? && |r.response.outputs| == |commands|
      && r.registry[id].process.sent == reg[id].process.sent + AsLines(commands)
  {
    match Get(reg, id)
    case None => ToolResult(reg, Failed(InvalidSessionId))
    case Some(session) =>
      var path := NormalizePath(session.workingDir, program);
      var retargeted := reg[id := session.(target := Some(path))];
      Respond(ExecAll(retargeted, id, LoadCommands(path, arguments)))
  }

  /** The replies `Load` returns are gdb's replies to its commands: successive
      reply passes over the session's unread output, one per command, with
      what the last pass left still pending. */
  lemma LoadReadsInTurn(reg: Registry, id: string, program: string, arguments: Option<seq<string>>)
    requires CanExec(reg, id)
    ensures var r := Load(reg, id, program, arguments);
      r.response.Replies?
      && ReadsInTurn(reg[id].process.pending, r.registry[id].process.pending, r.response.outputs)
  {
    var path := NormalizePath(reg[id].workingDir, program);
    var retargeted := reg[id := reg[id].(target := Some(path))];
    ExecAllReadsInTurn(retargeted, id, LoadCommands(path, arguments));
  }

  /** The target is recorded even when gdb cannot be reached to load it. */
  lemma LoadRecordsTargetEvenOnFailure(reg: Registry, id: string, program: string, arguments: Option<seq<string>>)
    requires id in reg && !CanExec(reg, id)
    ensures Load(reg, id, program, arguments).response.Failed?
    ensures Load(reg, id, program, arguments).registry[id].target == Some(NormalizePath(reg[id].workingDir, program))
  {
  }

  // ----- gdb_set_breakpoint -----

  /** Send `break <location>`; then, when a condition is given and the reply
      names the breakpoint's number, send `condition <number> <condition>`. */
  function SetBreakpoint(reg: Registry, id: string, location: string, condition: Option<string>): (r: ToolResult)
    ensures id !in reg ==> r == ToolResult(reg, Failed(InvalidSessionId))
    ensures id in reg && !CanExec(reg, id) ==> r == ToolResult(reg, Failed(StreamsUnavailable))
    ensures CanExec(reg, id) ==>
      && r.response.Replies? && 1 <= |r.response.outputs| <= 2
      && OthersUnchanged(reg, r.registry, id) && SameBesidesStreams(reg[id], r.registry[id])
    ensures CanExec(reg, id) ==>
      && r.response.outputs[0] == Exec(reg, id, BreakCommand(location)).result.value
      && var gate := ConditionCommand(condition, r.response.outputs[0]);
      && (|r.response.outputs| == 2 <==> gate.Some?)
      && r.registry[id].process.sent
         == reg[id].process.sent + [BreakCommand(location) + "\n"]
            + (if gate.Some? then [gate.value + "\n"] else [])
  {
    var placed := Exec(reg, id, BreakCommand(location));
    match placed.result
    case Err(message) => ToolResult(placed.registry, Failed(message))
    case Ok(output) =>
      match ConditionCommand(condition, output)
      case None => ToolResult(placed.registry, Replies([output]))
      case Some(command) =>
        var conditioned := Exec(placed.registry, id, command);
        StepsCompose(reg, placed.registry, conditioned.registry, id);
        match conditioned.result
        case Err(message) => ToolResult(conditioned.registry, Failed(message))
        case Ok(conditionOutput) => ToolResult(conditioned.registry, Replies([output, conditionOutput]))
  }

  /** The replies are gdb's: the first is the reply pass that follows
      `break`, which is the text the condition gate inspects, and the second,
      when the gate let `condition` through, is the pass after that; what the
      last pass left stays pending. */
  lemma SetBreakpointReadsInTurn(reg: Registry, id: string, location: string, condition: Option<string>)
    requires CanExec(reg, id)
    ensures var r := SetBreakpoint(reg, id, location, condition);
      ReadsInTurn(reg[id].process.pending, r.registry[id].process.pending, r.response.outputs)
  {
    var placed := Exec(reg, id, BreakCommand(location));
    ExecReadsOneReply(reg, id, BreakCommand(location));
    var before := reg[id].process.pending;
    var mid := placed.registry[id].process.pending;
    var output := placed.result.value;
    match ConditionCommand(condition, output)
    case None =>
      assert SetBreakpoint(reg, id, location, condition) == ToolResult(placed.registry, Replies([output]));
      ReadsInTurnCons(before, mid, mid, output, []);
    case Some(command) =>
      assert CanExec(placed.registry, id);
      var conditioned := Exec(placed.registry, id, command);
      ExecReadsOneReply(placed.registry, id, command);
      var after := conditioned.registry[id].process.pending;
      var second := conditioned.result.value;
      assert SetBreakpoint(reg, id, location, condition) == ToolResult(conditioned.registry, Replies([output, second]));
      ReadsInTurnCons(mid, after, after, second, []);
      ReadsInTurnCons(before, mid, after, output, [second]);
  }

  /** Without a condition only the `break` command is sent. */
  lemma NoConditionSendsOnlyBreak(reg: Registry, id: string, location: string, condition: Option<string>)
    requires CanExec(reg, id) && !Present(condition)
    ensures SetBreakpoint(reg, id, location, condition).registry[id].process.sent
            == reg[id].process.sent + [BreakCommand(location) + "\n"]
  {
  }

  // ----- gdb_list_sessions -----

  /** One row of the session listing. */
  datatype SessionInfo = SessionInfo(sessionId: string, workingDir: Option<string>, target: Option<string>)

  /** The listing: one row per registered session, in no promised order. */
  method ListSessions(reg: Registry) returns (infos: seq<SessionInfo>)
    ensures |infos| == |reg|
    ensures forall i :: 0 <= i < |infos| ==>
      infos[i].sessionId in reg
      && infos[i].workingDir == reg[infos[i].sessionId].workingDir
      && infos[i].target == reg[infos[i].sessionId].target
    ensures forall id :: id in reg ==> exists i :: 0 <= i < |infos| && infos[i].sessionId == id
    ensures forall i, j :: 0 <= i < j < |infos| ==> infos[i].sessionId != infos[j].sessionId
  {
    infos := [];
    var remaining := reg.Keys;
    while remaining != {}
      invariant remaining <= reg.Keys
      invariant |infos| + |remaining| == |reg.Keys|
      invariant forall i :: 0 <= i < |infos| ==>
        infos[i].sessionId in reg && infos[i].sessionId !in remaining
        && infos[i].workingDir == reg[infos[i].sessionId].workingDir
        && infos[i].target == reg[infos[i].sessionId].target
      invariant forall id :: id in reg && id !in remaining ==>
        exists i :: 0 <= i < |infos| && infos[i].sessionId == id
      invariant forall i, j :: 0 <= i < j < |infos| ==> infos[i].sessionId != infos[j].sessionId
      decreases remaining
    {
      var id :| id in remaining;
      ghost var listed := infos;
      infos := infos + [SessionInfo(id, reg[id].workingDir, reg[id].target)];
      remaining := remaining - {id};
      forall k | k in reg && k !in remaining
        ensures exists i :: 0 <= i < |infos| && infos[i].sessionId == k
      {
        if k == id {
          assert infos[|listed|].sessionId == k;
        } else {
          var i :| 0 <= i < |listed| && listed[i].sessionId == k;
          assert infos[i] == listed[i];
        }
      }
    }
  }

  // ----- gdb_terminate -----

  /** The registry after termination, the response, whether `quit` reached
      gdb and whether the process was killed. */
  datatype Termination = Termination(registry: Registry, response: Response, quitSent: bool, killed: bool)

  const QuitCommand := "quit"

  /** Terminate a session: reject an unknown id; try `quit`, ignoring any
      failure; kill the process if it has not exited; then remove the entry.
      `killError` is the error killing raises, if it raises one; the source
      then reports it and leaves the entry registered. */
  function Terminate(reg: Registry, id: string, killError: Option<string>): (t: Termination)
    ensures id !in reg ==> t == Termination(reg, Failed(InvalidSessionId), false, false)
    ensures id in reg ==> t.quitSent == CanExec(reg, id) && t.killed == !reg[id].process.exited
    ensures id in reg && !(t.killed && killError.Some?) ==>
      && t.response == Succeeded
      && t.registry.Keys == reg.Keys - {id}
      && (forall k :: k in t.registry ==> t.registry[k] == reg[k])
    ensures id in reg && t.killed && killError.Some? ==>
      && t.response == Failed(killError.value)
      && OthersUnchanged(reg, t.registry, id)
      && SameBesidesStreams(reg[id], t.registry[id])
      && t.registry[id].process.sent
         == reg[id].process.sent + (if t.quitSent then [QuitCommand + "\n"] else [])
  {
    if id !in reg then Termination(reg, Failed(InvalidSessionId), false, false)
    else
      var quit := Exec(reg, id, QuitCommand);
      var after := quit.registry;
      if after[id].process.exited then
        Termination(Remove(after, id), Succeeded, quit.result.Ok?, false)
      else if killError.Some? then
        Termination(after, Failed(killError.value), quit.result.Ok?, true)
      else
        Termination(Remove(after, id), Succeeded, quit.result.Ok?, true)
  }

  /** Terminating twice: the second call finds no session and changes nothing. */
  lemma TerminateTwice(reg: Registry, id: string, firstKillError: Option<string>, secondKillError: Option<string>)
    requires Terminate(reg, id, firstKillError).response == Succeeded
    ensures var after := Terminate(reg, id, firstKillError).registry;
      id !in after
      && Terminate(after, id, secondKillError) == Termination(after, Failed(InvalidSessionId), false, false)
  {
  }
}
